=== FILE: README.md ===
# Stock pipeline: fetch, validate, store

A Dafny model of the hourly stock-price pipeline in `dags/fetch_stock_data.py`.
The fetcher makes a bounded number of GET attempts against the price API and
retries timeouts, transport errors and non-list bodies. From the first list
body it keeps every item that has the keys `symbol`, `price` and `date`. The
store writes the kept records into the PostgreSQL table `stock_data`. It works
in batches of `BATCH_SIZE`, with an upsert keyed on `(symbol, date)`, inside a
single transaction that either commits every batch or rolls back. The
orchestrator `fetch_and_store` runs the fetch and then the store.

Modules, one per component:

- `Config`: the settings read from the environment (`MAX_RETRIES`,
  `RETRY_DELAY`, `BATCH_SIZE`) and their defaults 3, 5 and 500. Also the pool's
  limit of 5 connections.
- `Records`: raw items as key maps and the presence check. `Kept` and
  `Dropped` are the reference definitions. `Screen` is the loop itself.
- `Fetcher`: the retry loop, run over the sequence of outcomes that the
  successive attempts observe. Pauses are counted, not slept.
- `Batching`: `for i in range(0, n, size): data[i:i+size]`.
- `Store`: the table as a map `(symbol, date) -> price`, the upsert, the pool
  as a count of checked-out connections, and `store_stock_data` with its
  failure points as an explicit `Faults` parameter.
- `Pipeline`: `fetch_and_store` and two end-to-end scenarios.

Prices, symbols and dates are values of an opaque type parameter `V`. The code
never inspects them.

Edge cases in the code that the model follows:

- `MAX_RETRIES <= 0` makes no request and returns `[]`.
- A negative `RETRY_DELAY` makes `time.sleep` raise before the second attempt.
  The exception propagates.
- `BATCH_SIZE == 0` makes `range()` raise a `ValueError`. That is not a
  `psycopg2.Error`, so it propagates after the connection is returned.
- A negative `BATCH_SIZE` gives an empty range. The store then commits without
  writing anything.
- An item without one of the three keys that reaches the store raises
  `KeyError` on line 111, which propagates. In a pipeline run this cannot
  happen (`Pipeline.PipelineStoresOnlyRecords`).

## Model

| member | source | states |
|---|---|---|
| Records.Kept | dags/fetch_stock_data.py:64-71 | the returned list holds only items that carry all three keys, and is no longer than the payload |
| Records.Dropped | dags/fetch_stock_data.py:64-69 | only items that lack a required key are warned about, and no more than the payload holds |
| Records.Screen | dags/fetch_stock_data.py:64-69 | the screening loop sends each item, in order, to exactly the kept list or the warning list, matching `Kept` and `Dropped` |
| Records.IsRecord | dags/fetch_stock_data.py:66 | an item passes the check iff each of `symbol`, `price` and `date` is one of its keys. `KeptMembership` and `ExtraKeysAllowed` state what follows for the filter |
| Records.KeptDroppedSnoc | dags/fetch_stock_data.py:65-69 | screening one more item appends it to the kept list if it has the keys, else to the warning list |
| Records.KeptMembership | dags/fetch_stock_data.py:66-67 | an item is returned if and only if it is in the payload and `{"symbol","price","date"}` is a subset of its keys |
| Records.DroppedMembership | dags/fetch_stock_data.py:68-69 | an item is warned about if and only if it is in the payload and lacks a required key |
| Records.KeptDroppedPartition | dags/fetch_stock_data.py:64-69 | kept plus dropped is the payload as a multiset, so N valid and M invalid items give exactly N records |
| Records.KeptIsSubsequence | dags/fetch_stock_data.py:64-67 | the returned records keep their payload order |
| Records.KeptAllRecords | dags/fetch_stock_data.py:64-71 | a payload made only of records is returned unchanged with no warnings |
| Records.ExtraKeysAllowed | dags/fetch_stock_data.py:66 | adding any key to a record leaves it a record |
| Fetcher.Retry | dags/fetch_stock_data.py:55-84 | from a given attempt, the loop makes at most max(0, MAX_RETRIES) requests, retries every attempt before the last one it makes, and pauses once after every failed attempt except the final one. It returns the screened first list body, or propagates an uncaught exception (or a negative-delay sleep error), or returns `[]` once every attempt failed |
| Fetcher.Retryable | dags/fetch_stock_data.py:57-62 | an attempt is retried iff it neither raised an exception outside the three classes caught at lines 73-78 nor returned a list body |
| Fetcher.FetchStockData | dags/fetch_stock_data.py:50-84 | at most max(0, MAX_RETRIES) attempts, returned items are records, and exhaustion returns `[]` after exactly max(0, MAX_RETRIES) attempts |
| Fetcher.FirstListReturns | dags/fetch_stock_data.py:55-71 | with RETRY_DELAY >= 0: if attempt k is the first not retried and its body is a list, the result is that list screened, after k+1 attempts and k pauses |
| Fetcher.RetryReachesAttempt | dags/fetch_stock_data.py:73-81 | with RETRY_DELAY >= 0: when all earlier attempts were retried, the loop reaches attempt k having paused k times |
| Fetcher.UnexpectedPropagates | dags/fetch_stock_data.py:55-79 | with RETRY_DELAY >= 0: an exception outside the three caught classes on attempt k leaves the function after k+1 attempts and k pauses |
| Fetcher.ExhaustionReturnsEmpty | dags/fetch_stock_data.py:55-84 | with RETRY_DELAY >= 0: if every attempt times out, fails in transport or returns a non-list body, exactly max(0, MAX_RETRIES) attempts and max(0, MAX_RETRIES-1) pauses are made and `[]` is returned |
| Fetcher.LaterOutcomesIgnored | dags/fetch_stock_data.py:55-71 | outcomes after the attempt that ended the loop do not change the result: no further request is made |
| Batching.BatchesFrom | dags/fetch_stock_data.py:109-110 | every batch is non-empty and holds at most BATCH_SIZE records |
| Batching.BatchesConcat | dags/fetch_stock_data.py:109-110 | the batches concatenate back to the input: no omission, duplication or reordering |
| Batching.BatchesFromConcat | dags/fetch_stock_data.py:109-110 | the batches from index i concatenate to the input's suffix from i |
| Batching.BatchesCount | dags/fetch_stock_data.py:109 | the loop runs ceil(n / BATCH_SIZE) times: the least m with m * BATCH_SIZE >= n |
| Batching.BatchesFromCount | dags/fetch_stock_data.py:109 | the number of batches from index i is the least m with m * BATCH_SIZE >= n - i |
| Batching.BatchesIndex | dags/fetch_stock_data.py:109-110 | batch k is the contiguous slice from k * BATCH_SIZE to min(k * BATCH_SIZE + BATCH_SIZE, n) |
| Batching.BatchesFromIndex | dags/fetch_stock_data.py:109-110 | batch k from index i starts at i + k * BATCH_SIZE and is clamped to the input's end |
| Store.RowOf | dags/fetch_stock_data.py:111 | the row of an item carries its `symbol` and `date` as the conflict key and its `price` |
| Store.RowsOf | dags/fetch_stock_data.py:111 | the `values` list has one row per batch item, in item order, each with that item's key and price |
| Store.Upsert | dags/fetch_stock_data.py:101-106 | the statement keeps every existing key and adds every key it carries. `UpsertLastWins` states which price each key ends with |
| Store.UpsertAppend | dags/fetch_stock_data.py:101-112 | upserting two runs of rows one after the other equals upserting their concatenation |
| Store.UpsertLastWins | dags/fetch_stock_data.py:101-106 | after the upsert a key is present iff it was before or a row carries it. It then holds the price of the last such row, and keys no row carries keep their price |
| Store.UpsertIdempotent | dags/fetch_stock_data.py:101-106 | upserting the same rows a second time leaves the table unchanged |
| Store.InitDbPool | dags/fetch_stock_data.py:36-47 | the pool is created only when absent and an existing one is reused. Creation can fail, and no connection is checked out afterwards |
| Store.InitDbPoolReuses | dags/fetch_stock_data.py:39 | initialising an already initialised pool changes nothing |
| Store.GetConn | dags/fetch_stock_data.py:98 | a connection is handed out iff fewer than 5 are out and the pool can open one, and then the count of checked-out connections goes up by one |
| Store.PutConn | dags/fetch_stock_data.py:122-124 | returning the connection lowers the count of checked-out connections by one |
| Store.RunBatches | dags/fetch_stock_data.py:109-113 | the loop executes every batch iff every batch has all keys, is accepted by the server and has distinct keys. It stops at the first batch that fails and logs one count per executed batch, equal to that batch's size |
| Store.RunBatchesWrites | dags/fetch_stock_data.py:109-115 | a loop that executes every batch leaves the transaction holding all rows upserted in input order |
| Store.Transaction | dags/fetch_stock_data.py:97-121 | unless the transaction commits, the table is exactly as before, and a caught database error always rolls back |
| Store.StoreStockData | dags/fetch_stock_data.py:87-124 | empty input changes nothing and creates no pool. A store that does not commit leaves the table as before, and so does a BATCH_SIZE <= 0 (an error at 0, an empty commit below 0). The number of checked-out connections is the same after the call as before, on every path |
| Store.StoreCommitWrites | dags/fetch_stock_data.py:101-115 | a committed store with positive BATCH_SIZE leaves the old table with every input record upserted in order |
| Store.StoreLastWins | dags/fetch_stock_data.py:101-115 | with BATCH_SIZE > 0: after a committed store each (symbol, date) of the input holds the price of its last occurrence, and every other key is unchanged |
| Store.StoreCommitsIff | dags/fetch_stock_data.py:91-121 | with BATCH_SIZE > 0: the commit happens iff the input is non-empty, a connection is obtained, every batch gets through and the commit succeeds |
| Store.StoreTwiceIsStoreOnce | dags/fetch_stock_data.py:101-106 | with BATCH_SIZE > 0, when both stores commit: storing the same records twice leaves the same table as storing them once |
| Pipeline.FetchAndStore | dags/fetch_stock_data.py:127-132 | the store runs iff the fetch did not raise. An empty fetch result changes nothing. A run that does not commit leaves the table as it was. Checked-out connections balance |
| Pipeline.PipelineStoresOnlyRecords | dags/fetch_stock_data.py:127-132 | the store never receives an item missing a key. A run that leaves by an exception did so in the fetcher, in creating the pool, or because BATCH_SIZE is 0 |
| Pipeline.PipelineWritesScreenedRecords | dags/fetch_stock_data.py:127-132 | a run either leaves the table unchanged or upserts exactly the records screened from the list body of the attempt that ended the loop |
| Pipeline.OneQuoteRun | dags/fetch_stock_data.py:127-132 | a first attempt whose payload holds one complete quote returns it after one attempt, upserts that quote only and returns the connection |
| Pipeline.OneQuoteStore | dags/fetch_stock_data.py:87-124 | storing one complete quote with the default batch size commits it, logs one record and returns the connection |
| Pipeline.OneBatchWrites | dags/fetch_stock_data.py:109-113 | the batch loop over one batch holding one quote writes that quote and logs a count of 1 |
| Pipeline.ScenarioMissingPrice | dags/fetch_stock_data.py:64-71 | of an item with all keys and one missing `price`, only the first is stored and the second is warned about |
| Pipeline.ScenarioLaterPriceWins | dags/fetch_stock_data.py:101-106 | two runs storing the same (symbol, date) at 10.5 and then 11.0 leave one row priced 11.0 |

## Left out

- `dags/stock_dag.py` only wires `fetch_and_store` into an hourly Airflow schedule. There is no logic to model.
- HTTP details: the URL, the 10-second timeout, `raise_for_status` and JSON decoding. Each attempt is reduced to one `Attempt` value. A 4xx or 5xx status and an undecodable body are both `RequestFailed`, the class the loop catches.
- Fetcher.FetchStockData: requires one outcome per possible attempt (`MAX_RETRIES <= |outcomes|`). This stands in for the network, which always answers an attempt somehow. It restricts no input of the code.
- The length of each pause (`RETRY_DELAY` seconds) is not tracked, only the number of pauses and the error a negative delay raises.
- Logging: the text of messages is not modelled. Warnings for dropped items are the `warnings` sequence. Per-batch "Inserted/updated" counts are `logged`. Error and critical messages appear only as the run's status.
- Environment loading (`load_dotenv`, `os.getenv`, and `int()` raising on a non-numeric value at import) is replaced by the `Config.Settings` value.
- Store.RunBatches: a batch with two rows for the same (symbol, date) is always sent to the database-error path. `execute_values` really sends rows in pages of 100 per statement, so duplicates on different pages of one batch would not fail. The model does not follow that paging and does not claim "last wins" inside one batch.
- Failures of `conn.cursor()`, `conn.rollback()`, `cur.close()` and `putconn` are not modelled. Only pool creation, `getconn`, each `execute_values` and the commit can fail.
- The pool's own behaviour (`SimpleConnectionPool`) is only a counter of checked-out connections, capped at 5. A `getconn` that fails for any other reason is the `getconnFails` fault. An uncaught exception leaves the transaction uncommitted. The pool rolls it back when the connection is returned, and the model shows this as an unchanged table.
- Items that are not JSON objects are excluded by typing. In the code they behave in three ways:
  - A string item is checked character by character by `issubset`. It never contains the three key names, so it is dropped with a warning.
  - An array item is kept if it holds the three key names as elements, and dropped with a warning otherwise. A kept array makes `item["symbol"]` on line 111 raise `TypeError`, which propagates out of the store.
  - A number, boolean or null item makes `issubset` raise `TypeError`. The fetcher does not catch it, so it propagates.
- Rows are identified by equality of the `symbol` and `date` values as the API sent them. This assumes the key columns neither merge distinct values nor hold NULL. PostgreSQL really compares the values after converting them to the column types. So two spellings of one day (`"2024-01-01"` and `"2024-1-1"`) would hit the same row in a `date` column, but are two keys in the model. A JSON `null` symbol or date is sent as SQL NULL, which never matches a conflict target, so every run would insert a new row. The table schema is not part of this model. `Store.UpsertLastWins`, `Store.StoreLastWins` and `Store.StoreTwiceIsStoreOnce` hold only under this assumption.
- Concurrency between overlapping scheduled runs and the pool's thread safety are out of scope. Each call is modelled as running alone.

=== FILE: batching.dfy ===
/** The batching loop of dags/fetch_stock_data.py, lines 109-110:
    `for i in range(0, n, size): batch = data[i:i+size]`. */
module Batching {

  function Min(a: int, b: int): int {
    if a < b then a else b
  }

  /** The slices taken by the loop when its index starts at `i`: one slice per
      start `i, i + size, ...` below `|s|`, each clamped to the end of `s` the
      way a Python slice is. */
  function BatchesFrom<T>(s: seq<T>, size: nat, i: nat): (r: seq<seq<T>>)
    requires size > 0
    ensures forall k :: 0 <= k < |r| ==> 0 < |r[k]| <= size
    decreases |s| - i
  {
    if i >= |s| then []
    else [s[i .. Min(i + size, |s|)]] + BatchesFrom(s, size, i + size)
  }

  /** The batches of `s` for a positive BATCH_SIZE. */
  function Batches<T>(s: seq<T>, size: nat): seq<seq<T>>
    requires size > 0
  {
    BatchesFrom(s, size, 0)
  }

  /** The concatenation of a sequence of sequences. */
  function Concat<T>(ss: seq<seq<T>>): seq<T> {
    if |ss| == 0 then [] else ss[0] + Concat(ss[1..])
  }

  lemma {:induction false} ConcatAppend<T>(a: seq<seq<T>>, b: seq<seq<T>>)
    ensures Concat(a + b) == Concat(a) + Concat(b)
    decreases |a|
  {
    if |a| == 0 {
      assert a + b == b;
    } else {
      assert (a + b)[1..] == a[1..] + b;
      ConcatAppend(a[1..], b);
    }
  }

  /** The batches concatenate back to the input: nothing is omitted,
      duplicated or reordered. */
  lemma {:induction false} BatchesConcat<T>(s: seq<T>, size: nat)
    requires size > 0
    ensures Concat(Batches(s, size)) == s
  {
    BatchesFromConcat(s, size, 0);
  }

  lemma {:induction false} BatchesFromConcat<T>(s: seq<T>, size: nat, i: nat)
    requires size > 0
    ensures Concat(BatchesFrom(s, size, i)) == if i >= |s| then [] else s[i..]
    decreases |s| - i
  {
    if i < |s| {
      BatchesFromConcat(s, size, i + size);
      var r := BatchesFrom(s, size, i);
      assert r[0] == s[i .. Min(i + size, |s|)];
      assert r[1..] == BatchesFrom(s, size, i + size);
      if i + size < |s| {
        assert s[i..] == s[i .. i + size] + s[i + size ..];
      }
    }
  }

  /** The loop body runs ceil(n / size) times: the smallest m with
      m * size >= n. */
  lemma {:induction false} BatchesCount<T>(s: seq<T>, size: nat)
    requires size > 0
    ensures |Batches(s, size)| * size >= |s|
    ensures |Batches(s, size)| > 0 ==> (|Batches(s, size)| - 1) * size < |s|
  {
    BatchesFromCount(s, size, 0);
  }

  lemma {:induction false} BatchesFromCount<T>(s: seq<T>, size: nat, i: nat)
    requires size > 0
    ensures i >= |s| ==> |BatchesFrom(s, size, i)| == 0
    ensures i < |s| ==> |BatchesFrom(s, size, i)| * size >= |s| - i
    ensures i < |s| ==> (|BatchesFrom(s, size, i)| - 1) * size < |s| - i
    decreases |s| - i
  {
    if i < |s| {
      BatchesFromCount(s, size, i + size);
      var m := |BatchesFrom(s, size, i + size)|;
      assert |BatchesFrom(s, size, i)| == m + 1;
      assert (m + 1) * size == m * size + size;
    }
  }

  /** Batch k is the contiguous slice starting at k * size, as taken by
      `data[i:i+size]` with `i = k * size`. */
  lemma {:induction false} BatchesIndex<T>(s: seq<T>, size: nat, k: nat)
    requires size > 0
    requires k < |Batches(s, size)|
    ensures k * size < |s|
    ensures Batches(s, size)[k] == s[k * size .. Min(k * size + size, |s|)]
  {
    BatchesFromIndex(s, size, 0, k);
  }

  lemma {:induction false} BatchesFromIndex<T>(s: seq<T>, size: nat, i: nat, k: nat)
    requires size > 0
    requires k < |BatchesFrom(s, size, i)|
    ensures i + k * size < |s|
    ensures BatchesFrom(s, size, i)[k] == s[i + k * size .. Min(i + k * size + size, |s|)]
    decreases k
  {
    if k > 0 {
      BatchesFromIndex(s, size, i + size, k - 1);
      assert i + size + (k - 1) * size == i + k * size;
    }
  }
}

=== FILE: config.dfy ===
/** The pipeline's configuration, read from the environment at import time
    (dags/fetch_stock_data.py, lines 15-24 and 40-41). Only the values that
    steer the modelled logic are kept; connection credentials and the API
    URL are opaque to the model. */
module Config {

  /** MAX_RETRIES, RETRY_DELAY and BATCH_SIZE are parsed with `int(...)`, so
      any integer, including zero and negative ones, can reach the code. */
  datatype Settings = Settings(maxRetries: int, retryDelay: int, batchSize: int)

  /** The defaults used when the environment does not set a value. */
  const DefaultMaxRetries: int := 3
  const DefaultRetryDelay: int := 5
  const DefaultBatchSize: int := 500

  const Defaults: Settings := Settings(DefaultMaxRetries, DefaultRetryDelay, DefaultBatchSize)

  /** The most connections the process-wide pool hands out at once
      (`SimpleConnectionPool(1, 5, ...)`). */
  const MaxConnections: nat := 5
}

=== FILE: fetcher.dfy ===
/** The fetcher: a bounded retry loop around one HTTP GET, followed by the
    record screening (dags/fetch_stock_data.py, lines 50-84). The network is
    replaced by the sequence of outcomes the successive attempts observe,
    and `time.sleep` by a counter of the pauses taken. */
module Fetcher {
  import opened Records

  /** The decoded JSON body of a successful response. */
  datatype Payload<V> =
    | JsonArray(items: seq<Item<V>>)   // a list of objects
    | NotAnArray                       // any other JSON value

  /** What one `requests.get` attempt observes. */
  datatype Attempt<V> =
    | Responded(body: Payload<V>)  // no 4xx/5xx status and a JSON body
    | TimedOut                     // requests.Timeout
    | RequestFailed                // any other requests.RequestException
                                   // (connection error, 4xx or 5xx status, undecodable body)
    | Unexpected                   // an exception the loop does not catch

  /** The three failure classes the loop catches and retries: a timeout, a
      transport error, and the ValueError raised for a non-list body. */
  predicate Retryable<V>(a: Attempt<V>): (b: bool)
    ensures b <==> !a.Unexpected? && !(a.Responded? && a.body.JsonArray?)
  {
    a.TimedOut? || a.RequestFailed? || (a.Responded? && a.body.NotAnArray?)
  }

  /** The outcome of one call of the fetcher.
      `attempts` counts the GET requests made, `sleeps` the pauses taken.
      `Returned` carries the records returned and the items warned about;
      `exhausted` says that every attempt failed and the critical message was
      logged. `Raised` is an uncaught exception leaving the function. */
  datatype FetchRun<V> =
    | Returned(records: seq<Item<V>>, warnings: seq<Item<V>>, attempts: nat, sleeps: nat, exhausted: bool)
    | Raised(attempts: nat, sleeps: nat)

  function Max(a: int, b: int): int {
    if a < b then b else a
  }

  /** Every attempt with index in [from, to) was retried. */
  predicate RetriedBetween<V>(outcomes: seq<Attempt<V>>, from: nat, to: nat)
    requires to <= |outcomes|
  {
    forall j :: from <= j < to ==> Retryable(outcomes[j])
  }

  /** The loop of lines 55-84 from iteration `attempt` on, with `sleeps`
      pauses taken so far. A pause follows a failed attempt only when it is
      not the last one (line 80); `time.sleep` with a negative delay raises a
      ValueError outside the `try`, which leaves the function. */
  function Retry<V>(outcomes: seq<Attempt<V>>, maxRetries: int, retryDelay: int, attempt: nat, sleeps: nat): (r: FetchRun<V>)
    requires maxRetries <= |outcomes|
    requires attempt <= Max(0, maxRetries)
    requires sleeps == Max(0, if attempt < maxRetries then attempt else maxRetries - 1)
    ensures attempt <= r.attempts <= Max(0, maxRetries)
    ensures RetriedBetween(outcomes, attempt, if r.attempts == 0 then 0 else r.attempts - 1)
    ensures r.Returned? && r.exhausted ==>
              && r.attempts == Max(0, maxRetries)
              && RetriedBetween(outcomes, attempt, r.attempts)
              && r.records == [] && r.warnings == []
              && r.sleeps == Max(0, r.attempts - 1)
    ensures r.Returned? && !r.exhausted ==>
              && attempt < r.attempts
              && outcomes[r.attempts - 1].Responded?
              && outcomes[r.attempts - 1].body.JsonArray?
              && r.records == Kept(outcomes[r.attempts - 1].body.items)
              && r.warnings == Dropped(outcomes[r.attempts - 1].body.items)
              && r.sleeps == r.attempts - 1
    ensures r.Raised? ==>
              && attempt < r.attempts
              && (|| (outcomes[r.attempts - 1].Unexpected? && r.sleeps == r.attempts - 1)
                  || (Retryable(outcomes[r.attempts - 1]) && retryDelay < 0 && r.attempts < maxRetries
                      && r.sleeps == r.attempts - 1))
    decreases maxRetries - attempt
  {
    if attempt >= maxRetries then
      Returned([], [], attempt, sleeps, true)
    else
      match outcomes[attempt]
      case Responded(JsonArray(items)) =>
        Returned(Kept(items), Dropped(items), attempt + 1, sleeps, false)
      case Unexpected =>
        Raised(attempt + 1, sleeps)
      case _ =>
        if attempt < maxRetries - 1 then
          if retryDelay < 0 then Raised(attempt + 1, sleeps)
          else Retry(outcomes, maxRetries, retryDelay, attempt + 1, sleeps + 1)
        else
          Retry(outcomes, maxRetries, retryDelay, attempt + 1, sleeps)
  }

  /** `fetch_stock_data()`: one outcome is supplied for every attempt the loop
      may make. */
  function FetchStockData<V>(outcomes: seq<Attempt<V>>, maxRetries: int, retryDelay: int): (r: FetchRun<V>)
    requires maxRetries <= |outcomes|
    ensures r.attempts <= Max(0, maxRetries)
    ensures r.Returned? ==> AllRecords(r.records)
    ensures r.Returned? && r.exhausted ==> r.records == [] && r.attempts == Max(0, maxRetries)
  {
    Retry(outcomes, maxRetries, retryDelay, 0, 0)
  }

  /** The first attempt whose body is a list ends the loop: it returns the
      screened list at once, after k pauses, and later outcomes are never
      observed. */
  lemma {:induction false} FirstListReturns<V>(outcomes: seq<Attempt<V>>, maxRetries: int, retryDelay: int, k: nat)
    requires maxRetries <= |outcomes|
    requires k < maxRetries
    requires RetriedBetween(outcomes, 0, k)
    requires retryDelay >= 0
    requires outcomes[k].Responded? && outcomes[k].body.JsonArray?
    ensures FetchStockData(outcomes, maxRetries, retryDelay)
         == Returned(Kept(outcomes[k].body.items), Dropped(outcomes[k].body.items), k + 1, k, false)
  {
  }

  /** With a non-negative delay, the loop reaches attempt k with k pauses
      taken whenever all earlier attempts were retried. */
  lemma {:induction false} RetryReachesAttempt<V>(outcomes: seq<Attempt<V>>, maxRetries: int, retryDelay: int, k: nat)
    requires maxRetries <= |outcomes|
    requires k < maxRetries
    requires RetriedBetween(outcomes, 0, k)
    requires retryDelay >= 0
    ensures Retry(outcomes, maxRetries, retryDelay, 0, 0) == Retry(outcomes, maxRetries, retryDelay, k, k)
    decreases k
  {
    if k > 0 {
      RetryReachesAttempt(outcomes, maxRetries, retryDelay, k - 1);
      assert Retryable(outcomes[k - 1]);
    }
  }

  /** An uncaught exception on attempt k propagates after k pauses. */
  lemma {:induction false} UnexpectedPropagates<V>(outcomes: seq<Attempt<V>>, maxRetries: int, retryDelay: int, k: nat)
    requires maxRetries <= |outcomes|
    requires k < maxRetries
    requires RetriedBetween(outcomes, 0, k)
    requires retryDelay >= 0
    requires outcomes[k].Unexpected?
    ensures FetchStockData(outcomes, maxRetries, retryDelay) == Raised(k + 1, k)
  {
  }

  /** When every attempt fails in a retried way, exactly MAX_RETRIES requests
      and max(0, MAX_RETRIES - 1) pauses are made, and the result is empty. */
  lemma {:induction false} ExhaustionReturnsEmpty<V>(outcomes: seq<Attempt<V>>, maxRetries: int, retryDelay: int)
    requires maxRetries <= |outcomes|
    requires RetriedBetween(outcomes, 0, Max(0, maxRetries))
    requires retryDelay >= 0
    ensures FetchStockData(outcomes, maxRetries, retryDelay)
         == Returned([], [], Max(0, maxRetries), Max(0, maxRetries - 1), true)
  {
  }

  /** Outcomes after the attempt that ended the loop do not matter: the
      fetcher never issues another request. */
  lemma {:induction false} LaterOutcomesIgnored<V>(outcomes: seq<Attempt<V>>, other: seq<Attempt<V>>, maxRetries: int, retryDelay: int, attempt: nat, sleeps: nat)
    requires maxRetries <= |outcomes| && maxRetries <= |other|
    requires attempt <= Max(0, maxRetries)
    requires sleeps == Max(0, if attempt < maxRetries then attempt else maxRetries - 1)
    requires var n := Retry(outcomes, maxRetries, retryDelay, attempt, sleeps).attempts;
             outcomes[attempt..n] == other[attempt..n]
    ensures Retry(other, maxRetries, retryDelay, attempt, sleeps) == Retry(outcomes, maxRetries, retryDelay, attempt, sleeps)
    decreases maxRetries - attempt
  {
    if attempt < maxRetries {
      var n := Retry(outcomes, maxRetries, retryDelay, attempt, sleeps).attempts;
      assert outcomes[attempt] == outcomes[attempt..n][0] == other[attempt..n][0] == other[attempt];
      if Retryable(outcomes[attempt]) && (attempt >= maxRetries - 1 || retryDelay >= 0) {
        var s' := if attempt < maxRetries - 1 then sleeps + 1 else sleeps;
        assert outcomes[attempt + 1..n] == outcomes[attempt..n][1..];
        assert other[attempt + 1..n] == other[attempt..n][1..];
        LaterOutcomesIgnored(outcomes, other, maxRetries, retryDelay, attempt + 1, s');
      }
    }
  }
}

=== FILE: pipeline.dfy ===
/** The orchestrator `fetch_and_store` (dags/fetch_stock_data.py, lines
    127-132): fetch, then store whatever the fetch returned. */
module Pipeline {
  import opened Wrappers
  import opened Records
  import opened Batching
  import opened Fetcher
  import opened Store
  import Config

  /** The fetch outcome, the store outcome when the store ran, and the
      database afterwards. */
  datatype PipelineRun<V(==)> = PipelineRun(fetch: FetchRun<V>, store: Option<StoreRun<V>>, db: Db<V>)

  /** `fetch_and_store()`: an exception raised by the fetcher leaves before
      the store is called; otherwise the fetched list, possibly empty, is
      handed to the store. */
  function FetchAndStore<V(==)>(cfg: Config.Settings, outcomes: seq<Attempt<V>>, db: Db<V>, faults: Faults): (r: PipelineRun<V>)
    requires cfg.maxRetries <= |outcomes|
    ensures r.store.None? <==> r.fetch.Raised?
    ensures r.store.None? ==> r.db == db
    ensures CheckedOut(r.db.pool) == CheckedOut(db.pool)
    ensures r.fetch.Returned? && r.fetch.records == [] ==> r.db == db
    ensures r.store.Some? && !r.store.value.status.Committed? ==> r.db.table == db.table
  {
    var fetched := FetchStockData(outcomes, cfg.maxRetries, cfg.retryDelay);
    if fetched.Raised? then PipelineRun(fetched, None, db)
    else
      var stored := StoreStockData(fetched.records, cfg.batchSize, db, faults);
      PipelineRun(fetched, Some(stored), stored.db)
  }

  /** The store never sees an item without the three keys, so the KeyError of
      line 111 cannot happen in a pipeline run: a run that leaves by an
      exception did so in the fetcher, in creating the pool, or because
      BATCH_SIZE is zero. */
  lemma PipelineStoresOnlyRecords<V>(cfg: Config.Settings, outcomes: seq<Attempt<V>>, db: Db<V>, faults: Faults)
    requires cfg.maxRetries <= |outcomes|
    ensures var r := FetchAndStore(cfg, outcomes, db, faults);
            r.store.Some? && r.store.value.status.Crashed? ==>
              (db.pool.Uninitialized? && faults.poolInitFails) || cfg.batchSize == 0
  {
    var r := FetchAndStore(cfg, outcomes, db, faults);
    if r.store.Some? && cfg.batchSize > 0 {
      var records := r.fetch.records;
      var run := RunBatches(db.table, Batches(records, cfg.batchSize), 0, faults.failingBatches);
      if run.KeyMissing? {
        BatchesConcat(records, cfg.batchSize);
        ConcatBatchRecords(Batches(records, cfg.batchSize), |run.logged|);
      }
    }
  }

  /** Every batch of an all-record input is all records. */
  lemma {:induction false} ConcatBatchRecords<V>(batches: seq<seq<Item<V>>>, k: nat)
    requires k < |batches|
    requires AllRecords(Concat(batches))
    ensures AllRecords(batches[k])
    decreases k
  {
    assert Concat(batches) == batches[0] + Concat(batches[1..]);
    AllRecordsSplit(batches[0], Concat(batches[1..]));
    if k > 0 {
      ConcatBatchRecords(batches[1..], k - 1);
    }
  }

  /** A run either leaves the table as it was or upserts exactly the records
      screened out of the list payload that ended the retry loop. */
  lemma PipelineWritesScreenedRecords<V>(cfg: Config.Settings, outcomes: seq<Attempt<V>>, db: Db<V>, faults: Faults)
    requires cfg.maxRetries <= |outcomes|
    ensures var r := FetchAndStore(cfg, outcomes, db, faults);
            || r.db.table == db.table
            || (&& r.fetch.Returned? && !r.fetch.exhausted
                && outcomes[r.fetch.attempts - 1].Responded?
                && outcomes[r.fetch.attempts - 1].body.JsonArray?
                && r.db.table == Upsert(db.table, RowsOf(Kept(outcomes[r.fetch.attempts - 1].body.items))))
  {
    var r := FetchAndStore(cfg, outcomes, db, faults);
    if r.store.Some? && r.store.value.status.Committed? && cfg.batchSize > 0 {
      StoreCommitWrites(r.fetch.records, cfg.batchSize, db, faults);
    }
  }

  function Quote(symbol: string, price: string, date: string): Item<string> {
    map["symbol" := symbol, "price" := price, "date" := date]
  }

  /** An empty table whose pool has not been created yet. */
  const Fresh: Db<string> := Db(map[], Uninitialized)

  /** A payload with one complete quote and one quote missing its price:
      exactly the complete one is stored and one warning is produced. */
  lemma ScenarioMissingPrice()
    ensures var good := Quote("AAA", "10.5", "2024-01-01");
            var bad := map["symbol" := "BBB", "date" := "2024-01-01"];
            var outcomes := [Responded(JsonArray([good, bad])), TimedOut, TimedOut];
            var r := FetchAndStore(Config.Defaults, outcomes, Fresh, NoFaults);
            && r.fetch == Returned([good], [bad], 1, 0, false)
            && r.db.table == map[("AAA", "2024-01-01") := "10.5"]
  {
    var good := Quote("AAA", "10.5", "2024-01-01");
    var bad: Item<string> := map["symbol" := "BBB", "date" := "2024-01-01"];
    assert !IsRecord(bad);
    assert IsRecord(good);
    assert Kept([good, bad]) == [good];
    assert Dropped([good, bad]) == [bad];
    OneQuoteRun([good, bad], good, Fresh);
  }

  /** A run whose first attempt returns a payload holding one complete quote,
      against a pool with no connection out, returns that quote after one
      attempt and upserts it and nothing else. */
  lemma OneQuoteRun(items: seq<Item<string>>, q: Item<string>, db: Db<string>)
    requires Kept(items) == [q]
    requires CheckedOut(db.pool) == 0
    ensures var r := FetchAndStore(Config.Defaults, [Responded(JsonArray(items)), TimedOut, TimedOut], db, NoFaults);
            && r.fetch == Returned([q], Dropped(items), 1, 0, false)
            && r.db == Db(db.table[(q["symbol"], q["date"]) := q["price"]], Ready(0))
  {
    assert IsRecord(Kept(items)[0]);
    OneQuoteStore(q, db);
  }

  /** Storing one complete quote with the default batch size commits it. */
  lemma OneQuoteStore(q: Item<string>, db: Db<string>)
    requires IsRecord(q)
    requires CheckedOut(db.pool) == 0
    ensures StoreStockData([q], Config.DefaultBatchSize, db, NoFaults)
         == StoreRun(Committed, Db(db.table[(q["symbol"], q["date"]) := q["price"]], Ready(0)), [1])
  {
    assert BatchesFrom([q], Config.DefaultBatchSize, Config.DefaultBatchSize) == [];
    assert [q][0..1] == [q];
    assert Batches([q], Config.DefaultBatchSize) == [[q]];
    OneBatchWrites(db.table, q);
  }

  /** The batch loop over a single one-quote batch writes that quote. */
  lemma OneBatchWrites(t: Table<string>, q: Item<string>)
    requires IsRecord(q)
    ensures RunBatches(t, [[q]], 0, {}) == Written(t[(q["symbol"], q["date"]) := q["price"]], [1])
  {
    assert RowsOf([q]) == [RowOf(q)];
    assert [RowOf(q)][1..] == [];
    assert Upsert(t, [RowOf(q)]) == t[(q["symbol"], q["date"]) := q["price"]];
    assert [[q]][1..] == [];
    assert AllRecords([q]);
    assert DistinctKeys(RowsOf([q]));
    var after := t[(q["symbol"], q["date"]) := q["price"]];
    assert RunBatches(after, [], 1, {}) == Written(after, []);
  }

  /** Two runs that report the same (symbol, date) with different prices leave
      a single row holding the later price. */
  lemma ScenarioLaterPriceWins()
    ensures var first := [Responded(JsonArray([Quote("AAA", "10.5", "2024-01-01")])), TimedOut, TimedOut];
            var second := [Responded(JsonArray([Quote("AAA", "11.0", "2024-01-01")])), TimedOut, TimedOut];
            var r1 := FetchAndStore(Config.Defaults, first, Fresh, NoFaults);
            var r2 := FetchAndStore(Config.Defaults, second, r1.db, NoFaults);
            r2.db.table == map[("AAA", "2024-01-01") := "11.0"]
  {
    var q1 := Quote("AAA", "10.5", "2024-01-01");
    var q2 := Quote("AAA", "11.0", "2024-01-01");
    assert IsRecord(q1) && IsRecord(q2);
    assert Kept([q1]) == [q1] && Kept([q2]) == [q2];
    OneQuoteRun([q1], q1, Fresh);
    var db1 := Db(map[("AAA", "2024-01-01") := "10.5"], Ready(0));
    OneQuoteRun([q2], q2, db1);
  }
}

=== FILE: records.dfy ===
/** Raw API items and the presence check that decides which of them become
    stock records (dags/fetch_stock_data.py, lines 64-71). */
module Records {

  /** One element of the API's JSON array: an object, i.e. a map from key to
      value. The values are never inspected, so their type is a parameter. */
  type Item<V> = map<string, V>

  /** The keys a stock record must carry. */
  const RequiredKeys: set<string> := {"symbol", "price", "date"}

  /** `{"symbol", "price", "date"}.issubset(item)`: every required key is
      present; any further keys are ignored. */
  predicate IsRecord<V>(item: Item<V>): (b: bool)
    ensures b <==> "symbol" in item && "price" in item && "date" in item
  {
    RequiredKeys <= item.Keys
  }

  /** True when every item of `items` is a stock record. */
  predicate AllRecords<V>(items: seq<Item<V>>) {
    forall i :: 0 <= i < |items| ==> IsRecord(items[i])
  }

  lemma AllRecordsSplit<V>(a: seq<Item<V>>, b: seq<Item<V>>)
    requires AllRecords(a + b)
    ensures AllRecords(a) && AllRecords(b)
  {
    assert forall i :: 0 <= i < |a| ==> (a + b)[i] == a[i];
    assert forall i :: 0 <= i < |b| ==> (a + b)[|a| + i] == b[i];
  }

  /** The items that pass the check, in payload order. */
  function Kept<V>(items: seq<Item<V>>): (kept: seq<Item<V>>)
    ensures |kept| <= |items|
    ensures AllRecords(kept)
  {
    if |items| == 0 then []
    else (if IsRecord(items[0]) then [items[0]] else []) + Kept(items[1..])
  }

  /** The items that fail the check, in payload order: one warning each. */
  function Dropped<V>(items: seq<Item<V>>): (dropped: seq<Item<V>>)
    ensures |dropped| <= |items|
    ensures forall i :: 0 <= i < |dropped| ==> !IsRecord(dropped[i])
  {
    if |items| == 0 then []
    else (if IsRecord(items[0]) then [] else [items[0]]) + Dropped(items[1..])
  }

  /** `a` is obtained from `b` by deleting elements, without reordering. */
  predicate IsSubsequence<T(==)>(a: seq<T>, b: seq<T>)
    decreases |b|
  {
    if |a| == 0 then true
    else if |b| == 0 then false
    else (a[0] == b[0] && IsSubsequence(a[1..], b[1..])) || IsSubsequence(a, b[1..])
  }

  /** The screening loop of lines 65-69: each item goes to exactly one of the
      two outputs, in order. */
  method Screen<V>(items: seq<Item<V>>) returns (kept: seq<Item<V>>, dropped: seq<Item<V>>)
    ensures kept == Kept(items)
    ensures dropped == Dropped(items)
  {
    kept, dropped := [], [];
    var i := 0;
    while i < |items|
      invariant 0 <= i <= |items|
      invariant kept == Kept(items[..i])
      invariant dropped == Dropped(items[..i])
    {
      KeptDroppedSnoc(items[..i], items[i]);
      assert items[..i + 1] == items[..i] + [items[i]];
      if IsRecord(items[i]) {
        kept := kept + [items[i]];
      } else {
        dropped := dropped + [items[i]];
      }
      i := i + 1;
    }
    assert items[..i] == items;
  }

  /** Screening one more item extends exactly one of the two outputs. */
  lemma {:induction false} KeptDroppedSnoc<V>(items: seq<Item<V>>, x: Item<V>)
    ensures Kept(items + [x]) == Kept(items) + (if IsRecord(x) then [x] else [])
    ensures Dropped(items + [x]) == Dropped(items) + (if IsRecord(x) then [] else [x])
    decreases |items|
  {
    if |items| == 0 {
      assert items + [x] == [x];
    } else {
      assert (items + [x])[1..] == items[1..] + [x];
      KeptDroppedSnoc(items[1..], x);
    }
  }

  /** An item is returned exactly when it occurs in the payload and carries
      every required key. */
  lemma {:induction false} KeptMembership<V>(items: seq<Item<V>>, x: Item<V>)
    ensures x in Kept(items) <==> x in items && IsRecord(x)
    decreases |items|
  {
    if |items| > 0 {
      KeptMembership(items[1..], x);
      assert items == [items[0]] + items[1..];
    }
  }

  /** An item is warned about exactly when it occurs in the payload and lacks
      a required key. */
  lemma {:induction false} DroppedMembership<V>(items: seq<Item<V>>, x: Item<V>)
    ensures x in Dropped(items) <==> x in items && !IsRecord(x)
    decreases |items|
  {
    if |items| > 0 {
      DroppedMembership(items[1..], x);
      assert items == [items[0]] + items[1..];
    }
  }

  /** Screening loses and duplicates nothing: the kept and dropped items
      together are the payload, so N records and M rejects give N + M items. */
  lemma {:induction false} KeptDroppedPartition<V>(items: seq<Item<V>>)
    ensures |Kept(items)| + |Dropped(items)| == |items|
    ensures multiset(Kept(items)) + multiset(Dropped(items)) == multiset(items)
    decreases |items|
  {
    if |items| > 0 {
      KeptDroppedPartition(items[1..]);
      assert items == [items[0]] + items[1..];
    }
  }

  /** The records keep their payload order. */
  lemma {:induction false} KeptIsSubsequence<V>(items: seq<Item<V>>)
    ensures IsSubsequence(Kept(items), items)
    decreases |items|
  {
    if |items| > 0 {
      KeptIsSubsequence(items[1..]);
      if IsRecord(items[0]) {
        assert Kept(items)[0] == items[0];
        assert Kept(items)[1..] == Kept(items[1..]);
      } else {
        assert Kept(items) == Kept(items[1..]);
      }
    }
  }

  /** A payload made only of records comes through unchanged. */
  lemma {:induction false} KeptAllRecords<V>(items: seq<Item<V>>)
    requires AllRecords(items)
    ensures Kept(items) == items
    ensures Dropped(items) == []
    decreases |items|
  {
    if |items| > 0 {
      KeptAllRecords(items[1..]);
      assert items == [items[0]] + items[1..];
    }
  }

  /** Extra keys never disqualify a record. */
  lemma ExtraKeysAllowed<V>(item: Item<V>, key: string, value: V)
    requires IsRecord(item)
    ensures IsRecord(item[key := value])
  {
  }
}

=== FILE: store.dfy ===
/** The store: `store_stock_data` and `init_db_pool`
    (dags/fetch_stock_data.py, lines 33-47 and 87-124). The PostgreSQL table
    `stock_data` is a map from its unique key (symbol, date) to the price; the
    connection pool is reduced to the number of connections checked out of
    it; the points where the database can fail are an explicit parameter. */
module Store {
  import opened Wrappers
  import opened Records
  import opened Batching
  import Config

  /** One tuple of the `values` list (line 111). */
  datatype Row<V> = Row(symbol: V, price: V, date: V)

  /** The committed contents of `stock_data`: (symbol, date) -> price. */
  type Table<V(==)> = map<(V, V), V>

  /** The conflict target of the upsert: `ON CONFLICT (symbol, date)`. */
  function KeyOf<V>(row: Row<V>): (V, V) {
    (row.symbol, row.date)
  }

  /** `(item["symbol"], item["price"], item["date"])`. */
  function RowOf<V>(item: Item<V>): (r: Row<V>)
    requires IsRecord(item)
    ensures KeyOf(r) == (item["symbol"], item["date"])
    ensures r.price == item["price"]
  {
    Row(item["symbol"], item["price"], item["date"])
  }

  /** The `values` list of one batch: one row per item, in item order. */
  function RowsOf<V>(items: seq<Item<V>>): (rows: seq<Row<V>>)
    requires AllRecords(items)
    ensures |rows| == |items|
    ensures forall i :: 0 <= i < |items| ==>
              KeyOf(rows[i]) == (items[i]["symbol"], items[i]["date"]) && rows[i].price == items[i]["price"]
  {
    seq(|items|, i requires 0 <= i < |items| => RowOf(items[i]))
  }

  /** No two rows of one statement share a key. PostgreSQL rejects an
      `ON CONFLICT DO UPDATE` statement that would touch the same row twice. */
  predicate DistinctKeys<V(==)>(rows: seq<Row<V>>) {
    forall i, j :: 0 <= i < j < |rows| ==> KeyOf(rows[i]) != KeyOf(rows[j])
  }

  /** `INSERT ... ON CONFLICT (symbol, date) DO UPDATE SET price = EXCLUDED.price`
      applied row after row: a new key is inserted, an existing key gets the
      new price, and no other row is touched. For a statement whose keys are
      distinct this is the statement's effect. */
  function Upsert<V(==)>(t: Table<V>, rows: seq<Row<V>>): (r: Table<V>)
    ensures t.Keys <= r.Keys
    ensures forall i :: 0 <= i < |rows| ==> KeyOf(rows[i]) in r
    decreases |rows|
  {
    if |rows| == 0 then t
    else Upsert(t[KeyOf(rows[0]) := rows[0].price], rows[1..])
  }

  /** The price carried by the last row with the given key, if any: an
      independent, backwards description of which write survives. */
  function LastPrice<V(==)>(rows: seq<Row<V>>, key: (V, V)): Option<V>
    decreases |rows|
  {
    if |rows| == 0 then None
    else if KeyOf(rows[|rows| - 1]) == key then Some(rows[|rows| - 1].price)
    else LastPrice(rows[..|rows| - 1], key)
  }

  /** Upserting two runs of rows one after the other is upserting their
      concatenation. */
  lemma {:induction false} UpsertAppend<V>(t: Table<V>, a: seq<Row<V>>, b: seq<Row<V>>)
    ensures Upsert(t, a + b) == Upsert(Upsert(t, a), b)
    decreases |a|
  {
    if |a| == 0 {
      assert a + b == b;
    } else {
      assert (a + b)[1..] == a[1..] + b;
      UpsertAppend(t[KeyOf(a[0]) := a[0].price], a[1..], b);
    }
  }

  /** Last write wins: after the upsert a key is present exactly when it was
      present before or some row carries it; it then holds the price of the
      last such row, and every key no row carries keeps its old price. */
  lemma {:induction false} UpsertLastWins<V>(t: Table<V>, rows: seq<Row<V>>, key: (V, V))
    ensures key in Upsert(t, rows) <==> key in t || LastPrice(rows, key).Some?
    ensures LastPrice(rows, key).Some? ==> Upsert(t, rows)[key] == LastPrice(rows, key).value
    ensures LastPrice(rows, key).None? && key in t ==> Upsert(t, rows)[key] == t[key]
    decreases |rows|
  {
    if |rows| > 0 {
      var init, last := rows[..|rows| - 1], rows[|rows| - 1];
      assert rows == init + [last];
      UpsertAppend(t, init, [last]);
      UpsertLastWins(t, init, key);
    }
  }

  /** Storing the same rows again changes nothing. */
  lemma UpsertIdempotent<V>(t: Table<V>, rows: seq<Row<V>>)
    ensures Upsert(Upsert(t, rows), rows) == Upsert(t, rows)
  {
    var once := Upsert(t, rows);
    var twice := Upsert(once, rows);
    forall key | key in twice
      ensures key in once && twice[key] == once[key]
    {
      UpsertLastWins(t, rows, key);
      UpsertLastWins(once, rows, key);
    }
    forall key | key in once
      ensures key in twice
    {
      UpsertLastWins(once, rows, key);
    }
    assert twice.Keys == once.Keys;
  }

  lemma RowsOfAppend<V>(a: seq<Item<V>>, b: seq<Item<V>>)
    requires AllRecords(a) && AllRecords(b)
    ensures AllRecords(a + b)
    ensures RowsOf(a + b) == RowsOf(a) + RowsOf(b)
  {
  }

  /** The process-wide pool: not yet created, or created with `checkedOut`
      connections handed out and not yet returned. */
  datatype Pool = Uninitialized | Ready(checkedOut: nat)

  function CheckedOut(p: Pool): nat {
    if p.Ready? then p.checkedOut else 0
  }

  /** `init_db_pool()`: create the pool when absent, else reuse it. Creating
      it opens a first connection, which can fail with an error. */
  function InitDbPool(p: Pool, connectFails: bool): (r: Option<Pool>)
    ensures r.None? <==> p.Uninitialized? && connectFails
    ensures r.Some? ==> r.value.Ready? && CheckedOut(r.value) == CheckedOut(p)
    ensures p.Ready? ==> r == Some(p)
  {
    if p.Ready? then Some(p)
    else if connectFails then None
    else Some(Ready(0))
  }

  /** Creating the pool once is enough: a second call reuses it. */
  lemma InitDbPoolReuses(p: Pool, connectFails: bool, connectFails': bool)
    requires InitDbPool(p, connectFails).Some?
    ensures InitDbPool(InitDbPool(p, connectFails).value, connectFails') == InitDbPool(p, connectFails)
  {
  }

  /** `db_pool.getconn()`: refused when MaxConnections are out, or when the
      pool cannot open a connection. */
  function GetConn(p: Pool, refused: bool): (r: Option<Pool>)
    requires p.Ready?
    ensures r.Some? <==> p.checkedOut < Config.MaxConnections && !refused
    ensures r.Some? ==> r.value.Ready? && CheckedOut(r.value) == CheckedOut(p) + 1 <= Config.MaxConnections
  {
    if p.checkedOut >= Config.MaxConnections || refused then None
    else Some(Ready(p.checkedOut + 1))
  }

  /** `db_pool.putconn(conn)`. */
  function PutConn(p: Pool): (r: Pool)
    requires p.Ready? && p.checkedOut > 0
    ensures r.Ready? && CheckedOut(r) + 1 == CheckedOut(p)
  {
    Ready(p.checkedOut - 1)
  }

  /** Where the database side fails during one call. */
  datatype Faults = Faults(
    poolInitFails: bool,        // creating the pool cannot connect
    getconnFails: bool,         // the pool cannot hand out a connection
    failingBatches: set<nat>,   // indices of the statements the server rejects
    commitFails: bool)          // `conn.commit()` raises

  const NoFaults: Faults := Faults(false, false, {}, false)

  /** Batch `index` of the loop gets through lines 110-112: every item has the
      three keys, and the server accepts the statement. */
  predicate BatchSucceeds<V(==)>(batch: seq<Item<V>>, index: nat, failing: set<nat>) {
    AllRecords(batch) && index !in failing && DistinctKeys(RowsOf(batch))
  }

  /** How the batch loop ends. `logged` holds, per executed statement, the
      count reported by the "Inserted/updated" message. */
  datatype BatchesRun<V(==)> =
    | Written(work: Table<V>, logged: seq<nat>)   // every statement executed
    | KeyMissing(logged: seq<nat>)                 // KeyError building `values`
    | StatementFailed(logged: seq<nat>)            // psycopg2.Error from execute_values

  /** The loop of lines 109-113 over the remaining batches, the first of
      which has index `index`, inside the open transaction `work`. */
  function RunBatches<V(==)>(work: Table<V>, batches: seq<seq<Item<V>>>, index: nat, failing: set<nat>): (r: BatchesRun<V>)
    ensures r.Written? <==> forall k :: 0 <= k < |batches| ==> BatchSucceeds(batches[k], index + k, failing)
    ensures r.Written? ==> |r.logged| == |batches|
    ensures !r.Written? ==> |r.logged| < |batches| && !BatchSucceeds(batches[|r.logged|], index + |r.logged|, failing)
    ensures forall k :: 0 <= k < |r.logged| ==> BatchSucceeds(batches[k], index + k, failing)
    ensures forall k :: 0 <= k < |r.logged| ==> r.logged[k] == |batches[k]|
    ensures r.KeyMissing? ==> !AllRecords(batches[|r.logged|])
    decreases |batches|
  {
    if |batches| == 0 then Written(work, [])
    else if !AllRecords(batches[0]) then KeyMissing([])
    else
      var rows := RowsOf(batches[0]);
      if index in failing || !DistinctKeys(rows) then StatementFailed([])
      else
        var rest := RunBatches(Upsert(work, rows), batches[1..], index + 1, failing);
        rest.(logged := [|batches[0]|] + rest.logged)
  }

  /** What a fully written transaction holds: the rows of every batch, in
      order, upserted into the table it started from. */
  lemma {:induction false} RunBatchesWrites<V>(work: Table<V>, batches: seq<seq<Item<V>>>, index: nat, failing: set<nat>)
    requires RunBatches(work, batches, index, failing).Written?
    ensures AllRecords(Concat(batches))
    ensures RunBatches(work, batches, index, failing).work == Upsert(work, RowsOf(Concat(batches)))
    decreases |batches|
  {
    if |batches| > 0 {
      assert BatchSucceeds(batches[0], index, failing);
      var rows := RowsOf(batches[0]);
      RunBatchesWrites(Upsert(work, rows), batches[1..], index + 1, failing);
      RowsOfAppend(batches[0], Concat(batches[1..]));
      UpsertAppend(work, rows, RowsOf(Concat(batches[1..])));
    }
  }

  datatype StoreStatus =
    | NoData                   // empty input: warning logged, nothing else done
    | Committed                // every batch executed and the commit succeeded
    | DbError(rolledBack: bool) // psycopg2.Error caught and logged; rollback iff a connection was held
    | Crashed                  // an exception the function does not catch

  /** The database as the pipeline sees it. */
  datatype Db<V(==)> = Db(table: Table<V>, pool: Pool)

  /** The outcome of one call: the status, the database afterwards, and the
      per-batch counts logged. */
  datatype StoreRun<V(==)> = StoreRun(status: StoreStatus, db: Db<V>, logged: seq<nat>)

  /** The statements between `getconn` and `finally` (lines 99-121): the
      transaction either commits its work or leaves `table` as it was.
      `range(0, n, 0)` raises a ValueError, and a negative step gives an empty
      range. */
  function Transaction<V(==)>(table: Table<V>, data: seq<Item<V>>, batchSize: int, faults: Faults): (r: (StoreStatus, Table<V>, seq<nat>))
    ensures r.0.Committed? || r.0.DbError? || r.0.Crashed?
    ensures !r.0.Committed? ==> r.1 == table
    ensures r.0.DbError? ==> r.0.rolledBack
  {
    if batchSize == 0 then (Crashed, table, [])
    else
      var batches := if batchSize < 0 then [] else Batches(data, batchSize);
      match RunBatches(table, batches, 0, faults.failingBatches)
      case KeyMissing(logged) => (Crashed, table, logged)
      case StatementFailed(logged) => (DbError(true), table, logged)
      case Written(work, logged) =>
        if faults.commitFails then (DbError(true), table, logged)
        else (Committed, work, logged)
  }

  /** `store_stock_data(stock_data)`. */
  function StoreStockData<V(==)>(data: seq<Item<V>>, batchSize: int, db: Db<V>, faults: Faults): (r: StoreRun<V>)
    ensures r.status.NoData? <==> |data| == 0
    ensures |data| == 0 ==> r.db == db
    ensures !r.status.Committed? ==> r.db.table == db.table
    ensures CheckedOut(r.db.pool) == CheckedOut(db.pool)
    ensures batchSize <= 0 ==> r.db.table == db.table
    ensures |data| > 0 && !(db.pool.Uninitialized? && faults.poolInitFails) ==> r.db.pool.Ready?
  {
    if |data| == 0 then StoreRun(NoData, db, [])
    else
      match InitDbPool(db.pool, faults.poolInitFails)
      case None => StoreRun(Crashed, db, [])
      case Some(pool) =>
        match GetConn(pool, faults.getconnFails)
        case None => StoreRun(DbError(false), Db(db.table, pool), [])
        case Some(held) =>
          var (status, table, logged) := Transaction(db.table, data, batchSize, faults);
          StoreRun(status, Db(table, PutConn(held)), logged)
  }

  /** A committed store with a positive batch size leaves the table equal to
      the old table with every record upserted in input order. */
  lemma StoreCommitWrites<V>(data: seq<Item<V>>, batchSize: int, db: Db<V>, faults: Faults)
    requires batchSize > 0
    requires StoreStockData(data, batchSize, db, faults).status.Committed?
    ensures AllRecords(data)
    ensures StoreStockData(data, batchSize, db, faults).db.table == Upsert(db.table, RowsOf(data))
  {
    var batches := Batches(data, batchSize);
    RunBatchesWrites(db.table, batches, 0, faults.failingBatches);
    BatchesConcat(data, batchSize);
  }

  /** After a committed store each (symbol, date) of the input holds the price
      of its last occurrence, and every other key is unchanged. */
  lemma StoreLastWins<V>(data: seq<Item<V>>, batchSize: int, db: Db<V>, faults: Faults, key: (V, V))
    requires batchSize > 0
    requires StoreStockData(data, batchSize, db, faults).status.Committed?
    ensures AllRecords(data)
    ensures var after := StoreStockData(data, batchSize, db, faults).db.table;
            && (key in after <==> key in db.table || LastPrice(RowsOf(data), key).Some?)
            && (LastPrice(RowsOf(data), key).Some? ==> after[key] == LastPrice(RowsOf(data), key).value)
            && (LastPrice(RowsOf(data), key).None? && key in db.table ==> after[key] == db.table[key])
  {
    StoreCommitWrites(data, batchSize, db, faults);
    UpsertLastWins(db.table, RowsOf(data), key);
  }

  /** With a positive batch size, the commit happens exactly when the input is
      non-empty, a connection is obtained, every batch gets through, and the
      commit itself succeeds. */
  lemma StoreCommitsIff<V>(data: seq<Item<V>>, batchSize: int, db: Db<V>, faults: Faults)
    requires batchSize > 0
    ensures StoreStockData(data, batchSize, db, faults).status.Committed? <==>
              && |data| > 0
              && !(db.pool.Uninitialized? && faults.poolInitFails)
              && CheckedOut(db.pool) < Config.MaxConnections
              && !faults.getconnFails
              && (forall k :: 0 <= k < |Batches(data, batchSize)| ==>
                    BatchSucceeds(Batches(data, batchSize)[k], k, faults.failingBatches))
              && !faults.commitFails
  {
  }

  /** Two committed stores of the same input leave the table as one does. */
  lemma StoreTwiceIsStoreOnce<V>(data: seq<Item<V>>, batchSize: int, db: Db<V>, faults: Faults, faults': Faults)
    requires batchSize > 0
    requires StoreStockData(data, batchSize, db, faults).status.Committed?
    requires var once := StoreStockData(data, batchSize, db, faults).db;
             StoreStockData(data, batchSize, once, faults').status.Committed?
    ensures var once := StoreStockData(data, batchSize, db, faults).db;
            StoreStockData(data, batchSize, once, faults').db.table == once.table
  {
    var once := StoreStockData(data, batchSize, db, faults).db;
    StoreCommitWrites(data, batchSize, db, faults);
    StoreCommitWrites(data, batchSize, once, faults');
    UpsertIdempotent(db.table, RowsOf(data));
  }
}

=== FILE: wrappers.dfy ===
/** A small optional-value datatype shared by the other modules. */
module Wrappers {

  datatype Option<+T> = None | Some(value: T)
}
